=== FILE: README.md ===
# Book-review web application: a Dafny model of its request logic

This project models the logic of a small book-review site. Users register and
log in, search a catalogue of books, open a book's page and leave a star
rating with a text review, and read a book's review count and average rating
from a JSON endpoint. The model covers the handlers and helpers of
`application.py`, over an abstract database that holds:

- three tables: `users`, `books` and `reviews`, each a sequence of rows;
- a session that holds a username or nothing.

Each handler is a pure function from (tables, session, request) to
(new tables, new session, outcome). The proofs cover the following:

- **Star codec** (`Stars`): `stars_to_int` and `int_to_stars`. They are
  inverse bijections between 1..5 and the five glyphs. The glyph for `n` is
  `n` full stars followed by `5 - n` empty stars. Any other input has no
  result. In the source that is an unbound local variable, which fails the
  request.
- **Query normalisation** (`Query`): `" ".join(query.split())`. The split
  uses Python's whitespace set. The result is normalised: separators are
  single spaces, never at either end, never two in a row. The result keeps
  the words of the query. Normalising is idempotent, and its fixed points
  are exactly the normalised strings.
- **Search** (`Search`): queries shorter than 4 characters are refused
  without reading the table. Otherwise the query is matched as a
  case-insensitive substring of the isbn, title or author, and at most 10
  books come back. The statement has no `ORDER BY`, so the result is
  specified by `Admissible`. An admissible answer is any sub-multiset of the
  matches whose size is min(10, number of matches).
- **Registration, log-in, log-out and `login_required`** (`Auth`): the
  ordered validation chain, "table unchanged on error", unique usernames,
  and "register then log in". Log-in clears the session first. Log-out is
  idempotent. The guard never reaches the handler without a session.
- **Book page and review submission** (`BookDetail`): an unknown isbn
  changes nothing. A valid submission appends exactly one row: its rating
  comes from the codec and its username from the session. Afterwards the
  user's own-review lookup succeeds and the book's review list is one row
  longer.
- **JSON API** (`Api`): an unknown isbn gives not-found. Otherwise the
  review count is the number of the book's reviews. The average is 0.0 when
  there are none and is otherwise the exact mean, which lies in [1, 5] when
  every rating came from the codec.
- **The whole application** (`App`): `Step` dispatches one request, and
  `Run` handles a sequence of them. `Init(books)` is the database the import
  script leaves: the given book catalogue, five demo accounts and two
  five-star reviews, with no one logged in. Every request keeps an invariant:
  usernames are unique, every stored rating has a glyph, and a logged-in user
  has a row. `Init` satisfies it, so every reachable state does, and no
  request changes the catalogue.

The clock is a parameter of the book request (`now`). The database is the
`Db` value passed in and returned.

Two behaviours of the code that are easy to miss:

- Log-in clears the session before it checks anything, so a failed log-in
  also logs out whoever was logged in.
- The `reviews.review` column is `NOT NULL` in the schema of `import.py`.
  So a review form with no text field fails, and no row is stored.

## Model

| member | source | states |
|---|---|---|
| Stars.StarsToInt | application.py:57-70 | A glyph decodes to n in 1..5 exactly when it is n full stars followed by 5 - n empty ones; every other string has no rating |
| Stars.IntToStars | application.py:73-86 | An integer has a glyph exactly when it is in 1..5, and the glyph is the five-character reference shape |
| Stars.GlyphLiterals | application.py:58-66 | The five literal glyphs of the source are the reference shapes for 1..5 |
| Stars.RatingRoundTrip | application.py:57-86 | Decoding the glyph of a rating in 1..5 gives the rating back |
| Stars.GlyphRoundTrip | application.py:57-86 | Encoding the rating of a recognised glyph gives the glyph back |
| Stars.GlyphInjective | application.py:73-86 | Distinct ratings have distinct glyphs (the codec is a bijection) |
| Query.Split | application.py:213 | `str.split()` yields non-empty words free of whitespace, the first being the leading run of non-whitespace |
| Query.IsSpace | application.py:213 | The separators of an argument-less `str.split()` are exactly the code points Python's `str.isspace` accepts |
| Query.SplitWord | application.py:213 | A single word splits into a one-word list holding it |
| Query.SplitAtSeparator | application.py:213 | Words never run across a separator: splitting `a`, a separator, then `b` gives the words of `a` followed by the words of `b`; with the empty string giving no words, this fixes the result on every string |
| Query.SplitKeepsText | application.py:213 | The words of the query, written one after another, are exactly its non-whitespace characters in order |
| Query.SplitCountsWords | application.py:213 | `str.split()` yields one word per maximal run of non-whitespace: as many words as positions that start such a run |
| Query.JoinSqueeze | application.py:213 | `" ".join` of words yields exactly the letters of the words with one separator fewer than there are words |
| Query.Normalize | application.py:211-213 | The normalised query is normalised (single plain spaces, none at the ends, none adjacent) and has the same words as the raw query |
| Query.SplitJoin | application.py:213 | Splitting words joined by single spaces gives the same words back |
| Query.NormalizeIdempotent | application.py:213 | Normalising twice equals normalising once |
| Query.NormalizeFixpoint | application.py:213 | A string is unchanged by normalisation if and only if it is normalised |
| Search.ContainsSpec | application.py:226-230 | The substring test holds exactly when the needle occurs at some position of the field |
| Search.Matches | application.py:226-229 | A book matches exactly when the lower-cased query occurs at some position of the lower-cased isbn, title or author |
| Search.MatchingBooks | application.py:226-230 | The matching rows are exactly the table rows whose isbn, title or author contains the query ignoring case, with no row invented |
| Search.SearchRows | application.py:226-236 | The first ten matches in table order are an admissible answer of the limited statement |
| Search.AdmissibleAnswer | application.py:226-236 | Any admissible answer has at most 10 books, all of them matching rows of the table, all matches when at most 10 match, and exactly 10 when more match |
| Search.Search | application.py:197-238 | A GET renders an empty page; a missing query field fails; a submitted query is echoed normalised, refused with no books when under 4 characters, and otherwise answered admissibly |
| Search.ShortQueryNoLookup | application.py:216-218 | A query under 4 characters after normalisation yields the same empty, flagged page whatever the table holds |
| Search.MatchingIgnoresCase | application.py:223-230 | Queries that differ only in letter case select the same books |
| Tables.UserExists | application.py:121-122 | A username is taken exactly when some user row carries it |
| Tables.CredentialsMatch | application.py:156-157 | A log-in matches exactly when some user row carries both the username and the password |
| Tables.FindBook | application.py:249-257 | A book is found exactly when some row has that isbn, and the row found has it |
| Tables.ReviewsFor | application.py:302 | The list holds exactly the review rows of that isbn |
| Tables.OwnReview | application.py:289 | An own review is found exactly when some row has that isbn and username, and the row found has both |
| Tables.ReviewsForAppend | application.py:275-302 | Appending a row grows an isbn's review list by that row exactly when the row has that isbn |
| Auth.Register | application.py:100-138 | The outcome is decided in order: missing field, taken username, password mismatch, success; only success changes the table, by appending exactly the submitted pair |
| Auth.TakenBeforeMismatch | application.py:120-129 | A taken username is reported even when the passwords also differ, and the table is unchanged |
| Auth.RegisterRowCount | application.py:116-135 | The user table grows by one row on success and not at all on failure |
| Auth.RegisterKeepsUsernamesUnique | application.py:120-132 | Registration never creates two rows with one username |
| Auth.RegisterThenLogin | application.py:131-168 | After a successful registration, logging in with the same username and password succeeds and sets the session to that username |
| Auth.Login | application.py:141-168 | The session ends empty unless both fields are present and a row matches them exactly, in which case it holds the submitted username |
| Auth.LoginForgetsPriorSession | application.py:143-144 | The result of logging in does not depend on who was logged in before |
| Auth.Logout | application.py:171-179 | Logging out always leaves the session empty |
| Auth.LogoutIdempotent | application.py:176-177 | Logging out twice equals logging out once |
| Auth.LoginRequired | application.py:37-43 | The guard redirects exactly when the session is empty, and otherwise returns the handler's result for the session user |
| Auth.LoginRequiredSkipsHandler | application.py:40-41 | With an empty session the outcome is the redirect whatever the handler is |
| BookDetail.ReviewFromForm | application.py:264-275 | A row is produced exactly when the text is present and the glyph is recognised; it carries the isbn, session user, text and time, and a rating in 1..5 whose glyph is the submitted one |
| BookDetail.ShowReview | application.py:294-312 | A stored review can be shown exactly when its rating is in 1..5, and then it is shown with the rating's glyph and its own text, username and timestamp |
| BookDetail.ShowReviews | application.py:305-313 | The reviews can be shown exactly when every rating is in 1..5, and then each is shown in order with its glyph |
| BookDetail.RenderBook | application.py:286-315 | The page renders exactly when the book's ratings all have glyphs, and otherwise the request fails with a server error (the unbound `star_review` of application.py:84-86); it lists the view of every review of the book, and shows an own review exactly when the user has one, built from that row's text, glyph and timestamp |
| BookDetail.ViewBook | application.py:241-276 | An unknown isbn redirects and changes nothing; a GET changes nothing; a rejected form fails and changes nothing; an accepted form appends exactly its row; users and books never change |
| BookDetail.ValidRatingsRender | application.py:288-313 | When every stored rating has a glyph, the page of a known book renders |
| BookDetail.SubmitReviewAppends | application.py:261-276 | A valid review of a known book changes the tables only by appending the row with that isbn, text, decoded rating, session user and time |
| BookDetail.SubmitReviewEffect | application.py:261-302 | After a valid review of a known book, stored ratings stay in 1..5, the user's own-review lookup finds a row, and the book's review list is one row longer |
| BookDetail.SubmitReviewShown | application.py:261-315 | After a valid review of a known book, the page renders and lists one more review than before |
| Api.SumBounds | application.py:338-339 | Ratings in 1..5 sum to between one and five times their number |
| Api.Average | application.py:338-357 | With no reviews the average is 0.0; otherwise it is the arithmetic mean: times the number of reviews it gives the sum of their ratings |
| Api.AverageBounds | application.py:338-357 | The mean of ratings in 1..5 lies in [1, 5] |
| Api.Api | application.py:318-357 | An unknown isbn is not found; otherwise the object copies the book's columns, counts exactly its reviews, and reports 0.0 when there are none and their `Average` otherwise |
| Api.ApiAverageInRange | application.py:353-357 | When all stored ratings came from the codec, a reviewed book's average lies in [1, 5] |
| App.Step | application.py:100-359 | Books never change; guarded routes keep the session; only registration changes users; only the book route changes reviews |
| App.GuardedNeedsLogin | application.py:195-320 | With no one logged in, search, book and API requests change nothing and redirect home |
| App.ReviewCarriesSessionUser | application.py:269-275 | A logged-in user's accepted review is appended under the session's username |
| App.StepKeepsInvariant | application.py:100-276 | Every request keeps usernames unique, stored ratings in 1..5, and the session user present in the user table |
| App.InitInvariant | import.py:29-72 | The state the import script leaves, with any book catalogue, the five demo accounts, the two demo reviews and no session, satisfies the invariant |
| App.RunKeepsInvariant | application.py:100-359 | Any sequence of requests from a state satisfying the invariant, an `Init` state included, ends in a state satisfying it |
| App.KnownBookRenders | application.py:286-315 | In every state satisfying the invariant, a logged-in user can open the page of a known book |
| App.RunKeepsBooks | application.py:100-359 | No sequence of requests changes the book catalogue |
| App.ReachedBookRenders | application.py:286-315 | After any sequence of requests from the imported database, a logged-in user can open the page of every catalogue book |

## Left out

- `get_goodreads_review` and the rounding of its average to whole stars (application.py:46-54, 278-284): a network call to a third-party service and float rounding.
- `get_pretty_date` (application.py:89-97): it depends on the process time zone and locale month names. A shown review keeps its raw Unix timestamp.
- The `'%.2f'` rounding of the API average (application.py:357): float formatting. The average is the exact rational mean.
- Api.Api: the `int(...)` parse of the year (application.py:335) is not modelled. The year stays the stored string, so where the source fails with a `ValueError` on a year that is not a numeral, the model still returns the object.
- Search.Matches: the ILIKE wildcards `%` and `_` and the escape character `\` inside the user's query are read as literal characters. PostgreSQL would treat `%`/`_` as wildcards and drop a `\` before the next character. Case is folded for ASCII letters only; PostgreSQL's Unicode-aware lower-casing is not modelled.
- The order of SQL results (application.py:226-229, 289, 302): search answers are specified up to order through `Admissible`. The other lookups are modelled in table order, although the statements have no `ORDER BY`.
- BookDetail.RenderBook: the review list is taken in table order; the order the store returns is unspecified (application.py:302).
- Tables.OwnReview: when a user has several reviews of one book, the model shows the first in table order; `fetchone` at application.py:289 may return any of them.
- The home page's random quote (application.py:182-190), template rendering, the text of flash messages, Flask session storage, and the start-up environment checks (application.py:14-34).
- The check-then-insert race between two registrations of one username (application.py:121-132): the model is sequential, so it cannot show the race.
- The CSV reading and schema creation of `import.py`: the catalogue is a parameter of `Init`, and only the `NOT NULL` constraint on review text and the seeded demo accounts and reviews are modelled. The quotes table it fills feeds only the home page, which is left out above.
- The generated `id` of each review row. `COUNT(reviews.id)` counts rows, which is what the model counts.

=== FILE: api.dfy ===
/** The `/api/<isbn>` handler: the book's columns plus the number of its
    reviews and their average rating. */
module Api {
  import opened Tables

  /** `NotFound` is the 404 page; `BookJson` is the JSON object. The year is
      kept as the stored string and the average as an exact rational. */
  datatype ApiOutcome =
    | NotFound
    | BookJson(isbn: string, title: string, author: string, year: string,
               reviewCount: nat, averageScore: real)

  function SumRatings(rs: seq<Review>): int
  {
    if |rs| == 0 then 0 else rs[0].rating + SumRatings(rs[1..])
  }

  /** `AVG(rating)`, with the source's 0.0 for a book without reviews. */
  function Average(rs: seq<Review>): (avg: real)
    ensures |rs| == 0 ==> avg == 0.0
    ensures |rs| > 0 ==> avg * (|rs| as real) == SumRatings(rs) as real
  {
    if |rs| == 0 then 0.0
    else
      QuotientTimes(SumRatings(rs) as real, |rs| as real);
      SumRatings(rs) as real / |rs| as real
  }

  /** Ratings in 1..5 sum to between one and five times their number. */
  lemma {:induction false} SumBounds(rs: seq<Review>)
    requires RatingsValid(rs)
    ensures |rs| <= SumRatings(rs) <= 5 * |rs|
  {
    if |rs| > 0 {
      assert rs[0] in rs;
      assert RatingsValid(rs[1..]) by {
        forall r | r in rs[1..] ensures 1 <= r.rating <= 5 {
          assert r in rs;
        }
      }
      SumBounds(rs[1..]);
    }
  }

  /** The mean of valid ratings is itself between 1 and 5. */
  lemma AverageBounds(rs: seq<Review>)
    requires RatingsValid(rs) && |rs| > 0
    ensures 1.0 <= Average(rs) <= 5.0
  {
    SumBounds(rs);
    var n, sum := |rs| as real, SumRatings(rs) as real;
    assert sum <= (5 * |rs|) as real == 5.0 * n;
    QuotientBounds(sum, n);
  }

  lemma QuotientBounds(sum: real, n: real)
    requires 0.0 < n <= sum <= 5.0 * n
    ensures 1.0 <= sum / n <= 5.0
  {
  }

  function Api(db: Db, isbn: string): (r: ApiOutcome)
    ensures r.NotFound? <==> FindBook(db.books, isbn).None?
    ensures r.BookJson? ==>
      var book := FindBook(db.books, isbn).value;
      var rs := ReviewsFor(db.reviews, isbn);
      && r.isbn == isbn && r.title == book.title && r.author == book.author && r.year == book.year
      && r.reviewCount == |rs|
      && (r.reviewCount == 0 ==> r.averageScore == 0.0)
      && (r.reviewCount > 0 ==> r.averageScore == Average(rs))
  {
    match FindBook(db.books, isbn)
    case None => NotFound
    case Some(book) =>
      var rs := ReviewsFor(db.reviews, isbn);
      if |rs| == 0 then BookJson(isbn, book.title, book.author, book.year, 0, 0.0)
      else BookJson(isbn, book.title, book.author, book.year, |rs|, Average(rs))
  }

  /** When every stored rating came from the star codec, the reported average
      of a reviewed book lies between 1 and 5. */
  lemma ApiAverageInRange(db: Db, isbn: string)
    requires RatingsValid(db.reviews)
    requires Api(db, isbn).BookJson? && Api(db, isbn).reviewCount > 0
    ensures 1.0 <= Api(db, isbn).averageScore <= 5.0
  {
    AverageBounds(ReviewsFor(db.reviews, isbn));
  }

  lemma QuotientTimes(sum: real, n: real)
    requires n != 0.0
    ensures sum / n * n == sum
  {
  }
}

=== FILE: app.dfy ===
/** The application as a whole: one request at a time against the tables and
    the session, with `login_required` in front of search, book and API. */
module App {
  import opened Wrappers
  import opened Tables
  import opened Auth
  import opened Search
  import opened BookDetail
  import opened Api

  datatype State = State(db: Db, session: Session)

  /** A request as the handler reads it: form fields may be missing, the
      clock reading for a review is part of the request. */
  datatype Request =
    | RegisterRequest(username: Option<string>, password: Option<string>, repeat: Option<string>)
    | LoginRequest(username: Option<string>, password: Option<string>)
    | LogoutRequest
    | SearchRoute(search: Search.SearchRequest)
    | BookRoute(isbn: string, book: BookDetail.BookRequest, now: int)
    | ApiRequest(isbn: string)

  datatype Response =
    | RegisterResponse(register: RegisterOutcome)
    | LoginResponse(login: LoginOutcome)
    | LoggedOut
    | SearchResponse(search: SearchOutcome)
    | BookResponse(book: BookOutcome)
    | ApiResponse(api: ApiOutcome)
    | RedirectedToIndex

  /** The routes that sit behind `login_required`. */
  predicate RequiresLogin(req: Request)
  {
    req.SearchRoute? || req.BookRoute? || req.ApiRequest?
  }

  /** Handles one request. */
  function Step(st: State, req: Request): (r: (State, Response))
    ensures r.0.db.books == st.db.books
    ensures RequiresLogin(req) ==> r.0.session == st.session
    ensures !req.RegisterRequest? ==> r.0.db.users == st.db.users
    ensures !req.BookRoute? ==> r.0.db.reviews == st.db.reviews
  {
    match req
    case RegisterRequest(u, p, rp) =>
      var (users', out) := Register(st.db.users, u, p, rp);
      (st.(db := st.db.(users := users')), RegisterResponse(out))
    case LoginRequest(u, p) =>
      var (session', out) := Login(st.session, st.db.users, u, p);
      (st.(session := session'), LoginResponse(out))
    case LogoutRequest =>
      (st.(session := Logout(st.session)), LoggedOut)
    case SearchRoute(s) =>
      (match LoginRequired(st.session, (user: string) => Search.Search(st.db.books, s))
       case RedirectToIndex => (st, RedirectedToIndex)
       case Handled(page) => (st, SearchResponse(page)))
    case BookRoute(isbn, b, now) =>
      (match LoginRequired(st.session, (user: string) => ViewBook(st.db, user, isbn, b, now))
       case RedirectToIndex => (st, RedirectedToIndex)
       case Handled(handled) => (st.(db := handled.0), BookResponse(handled.1)))
    case ApiRequest(isbn) =>
      match LoginRequired(st.session, (user: string) => Api.Api(st.db, isbn))
      case RedirectToIndex => (st, RedirectedToIndex)
      case Handled(json) => (st, ApiResponse(json))
  }

  /** The demo accounts the import script creates. */
  const SeedUsers: seq<User> := [
    User("Joel", "7"), User("Michelle", "14"), User("Molina", "165"),
    User("Ellie", "3"), User("Izzy", "1")]

  /** The two reviews the import script stores. */
  const SeedReviews: seq<Review> := [
    Review("030734813X", "Best book ever!", 5, "Joel", 1568316549),
    Review("0316015849", "This book got me into reading!", 5, "Michelle", 1568316549)]

  /** The state before any request: the imported book catalogue, the demo
      accounts and reviews, and no one logged in. */
  function Init(books: seq<Book>): State
  {
    State(Db(SeedUsers, books, SeedReviews), None)
  }

  /** Handles a sequence of requests in order. */
  function Run(st: State, reqs: seq<Request>): State
    decreases |reqs|
  {
    if |reqs| == 0 then st else Run(Step(st, reqs[0]).0, reqs[1..])
  }

  /** What every state reached from an `Init` state satisfies
      (`RunKeepsInvariant`): usernames are unique, every stored rating has a
      glyph, and a logged-in user has a row. */
  predicate Invariant(st: State)
  {
    && UniqueUsernames(st.db.users)
    && RatingsValid(st.db.reviews)
    && (st.session.Some? ==> UserExists(st.db.users, st.session.value))
  }

  /** With no one logged in, a guarded route changes nothing and redirects
      home. */
  lemma GuardedNeedsLogin(st: State, req: Request)
    requires RequiresLogin(req) && st.session.None?
    ensures Step(st, req) == (st, RedirectedToIndex)
  {
  }

  /** A logged-in user's review is appended to the table under their name. */
  lemma ReviewCarriesSessionUser(st: State, isbn: string, text: string, star: string, now: int)
    requires st.session.Some?
    requires FindBook(st.db.books, isbn).Some? && Stars.StarsToInt(star).Some?
    ensures var row := Review(isbn, text, Stars.StarsToInt(star).value, st.session.value, now);
      Step(st, BookRoute(isbn, SubmitReview(Some(text), Some(star)), now)).0.db.reviews
        == st.db.reviews + [row]
  {
  }

  /** Every request keeps the invariant. */
  lemma StepKeepsInvariant(st: State, req: Request)
    requires Invariant(st)
    ensures Invariant(Step(st, req).0)
  {
    var st' := Step(st, req).0;
    match req
    case RegisterRequest(u, p, rp) =>
      RegisterKeepsUsernamesUnique(st.db.users, u, p, rp);
      if st.session.Some? {
        var i :| 0 <= i < |st.db.users| && st.db.users[i].username == st.session.value;
        assert st'.db.users[i] == st.db.users[i];
      }
    case LoginRequest(u, p) =>
      if st'.session.Some? {
        var i :| 0 <= i < |st.db.users| && st.db.users[i] == User(u.value, p.value);
        assert st'.db.users[i].username == st'.session.value;
      }
    case LogoutRequest =>
    case SearchRoute(_) =>
    case ApiRequest(_) =>
    case BookRoute(isbn, b, now) =>
      if st.session.Some? && FindBook(st.db.books, isbn).Some? && b.SubmitReview? {
        var row := ReviewFromForm(isbn, st.session.value, b.textReview, b.starReview, now);
        if row.Some? {
          assert st'.db.reviews == st.db.reviews + [row.value];
        }
      }
  }

  /** The initial state satisfies the invariant, whatever the catalogue: the
      demo usernames are distinct and the demo ratings have glyphs. */
  lemma InitInvariant(books: seq<Book>)
    ensures Invariant(Init(books))
  {
  }

  /** Every state reached from a state satisfying the invariant, in
      particular from an `Init` state, satisfies it. */
  lemma {:induction false} RunKeepsInvariant(st: State, reqs: seq<Request>)
    requires Invariant(st)
    ensures Invariant(Run(st, reqs))
    decreases |reqs|
  {
    if |reqs| > 0 {
      StepKeepsInvariant(st, reqs[0]);
      RunKeepsInvariant(Step(st, reqs[0]).0, reqs[1..]);
    }
  }

  /** In a state satisfying the invariant (so in every state reached from an
      `Init` state), a logged-in user can always open the page of a known book. */
  lemma KnownBookRenders(st: State, isbn: string, now: int)
    requires Invariant(st) && st.session.Some?
    requires FindBook(st.db.books, isbn).Some?
    ensures Step(st, BookRoute(isbn, ViewOnly, now)).1.book.BookPage?
  {
    ValidRatingsRender(st.db.reviews, FindBook(st.db.books, isbn).value, st.session.value);
  }

  /** No request changes the book catalogue. */
  lemma {:induction false} RunKeepsBooks(st: State, reqs: seq<Request>)
    ensures Run(st, reqs).db.books == st.db.books
    decreases |reqs|
  {
    if |reqs| > 0 {
      RunKeepsBooks(Step(st, reqs[0]).0, reqs[1..]);
    }
  }

  /** After any sequence of requests from the seeded catalogue, a logged-in
      user can open the page of every catalogue book. */
  lemma ReachedBookRenders(books: seq<Book>, reqs: seq<Request>, isbn: string, now: int)
    requires FindBook(books, isbn).Some?
    requires Run(Init(books), reqs).session.Some?
    ensures Step(Run(Init(books), reqs), BookRoute(isbn, ViewOnly, now)).1.book.BookPage?
  {
    InitInvariant(books);
    RunKeepsInvariant(Init(books), reqs);
    RunKeepsBooks(Init(books), reqs);
    KnownBookRenders(Run(Init(books), reqs), isbn, now);
  }
}

=== FILE: auth.dfy ===
/** Registration, log-in, log-out and the `login_required` guard. The session
    is the username it holds, or nothing. */
module Auth {
  import opened Wrappers
  import opened Tables

  type Session = Option<string>

  /** A form field that is present and non-empty: Python's truthiness test
      `not field` fails for both a missing field and the empty string. */
  predicate Filled(field: Option<string>)
  {
    field.Some? && field.value != ""
  }

  datatype RegisterOutcome = MissingField | UsernameTaken | PasswordMismatch | Registered

  /** The `/register` handler over the `users` table: missing field, then
      username taken, then password mismatch, then one row is appended. */
  function Register(users: seq<User>, username: Option<string>, password: Option<string>,
                    repeat: Option<string>): (r: (seq<User>, RegisterOutcome))
    ensures r.1 == MissingField <==> !(Filled(username) && Filled(password) && Filled(repeat))
    ensures r.1 == UsernameTaken <==>
      Filled(username) && Filled(password) && Filled(repeat) && UserExists(users, username.value)
    ensures r.1 == PasswordMismatch <==>
      Filled(username) && Filled(password) && Filled(repeat) && !UserExists(users, username.value)
      && password != repeat
    ensures r.1 == Registered <==>
      Filled(username) && Filled(password) && Filled(repeat) && !UserExists(users, username.value)
      && password == repeat
    ensures r.1 != Registered ==> r.0 == users
    ensures r.1 == Registered ==> r.0 == users + [User(username.value, password.value)]
  {
    if !Filled(username) || !Filled(password) || !Filled(repeat) then (users, MissingField)
    else if UserExists(users, username.value) then (users, UsernameTaken)
    else if password.value != repeat.value then (users, PasswordMismatch)
    else (users + [User(username.value, password.value)], Registered)
  }

  /** The `/logout` handler: the session is emptied whatever it held. */
  function Logout(session: Session): (r: Session)
    ensures r.None?
  {
    None
  }

  datatype LoginOutcome = CredentialsMissing | CredentialsRejected | LoggedIn

  /** The `/login` handler: the session is cleared first, then set to the
      submitted username only when a row matches both fields exactly. */
  function Login(session: Session, users: seq<User>, username: Option<string>,
                 password: Option<string>): (r: (Session, LoginOutcome))
    ensures r.1 == CredentialsMissing <==> !(Filled(username) && Filled(password))
    ensures r.1 == LoggedIn <==>
      Filled(username) && Filled(password) && CredentialsMatch(users, username.value, password.value)
    ensures r.1 == LoggedIn ==> r.0 == Some(username.value)
    ensures r.1 != LoggedIn ==> r.0.None?
  {
    var cleared := Logout(session);
    if !Filled(username) || !Filled(password) then (cleared, CredentialsMissing)
    else if !CredentialsMatch(users, username.value, password.value) then (cleared, CredentialsRejected)
    else (Some(username.value), LoggedIn)
  }

  /** Result of a guarded handler: either the redirect to the home page or
      what the wrapped handler produced. */
  datatype Guarded<R> = RedirectToIndex | Handled(response: R)

  /** The `login_required` decorator: the handler is given the session's
      username, and is not reached at all when the session is empty. */
  function LoginRequired<R>(session: Session, handler: string -> R): (g: Guarded<R>)
    ensures g.RedirectToIndex? <==> session.None?
    ensures g.Handled? ==> g.response == handler(session.value)
  {
    match session
    case None => RedirectToIndex
    case Some(user) => Handled(handler(user))
  }

  /** With no one logged in the outcome does not depend on the handler, so
      the handler is never invoked. */
  lemma LoginRequiredSkipsHandler<R>(session: Session, h1: string -> R, h2: string -> R)
    requires session.None?
    ensures LoginRequired(session, h1) == LoginRequired(session, h2) == RedirectToIndex
  {
  }

  /** Logging out twice is logging out once. */
  lemma LogoutIdempotent(session: Session)
    ensures Logout(Logout(session)) == Logout(session) == None
  {
  }

  /** A taken username is reported before a password mismatch. */
  lemma TakenBeforeMismatch(users: seq<User>, username: Option<string>, password: Option<string>,
                            repeat: Option<string>)
    requires Filled(username) && Filled(password) && Filled(repeat)
    requires UserExists(users, username.value)
    ensures Register(users, username, password, repeat) == (users, UsernameTaken)
  {
  }

  /** A failed registration leaves the table as it was; a successful one adds
      exactly one row. */
  lemma RegisterRowCount(users: seq<User>, username: Option<string>, password: Option<string>,
                         repeat: Option<string>)
    ensures var (users', outcome) := Register(users, username, password, repeat);
      |users'| == |users| + (if outcome == Registered then 1 else 0)
  {
  }

  /** Registration never creates a second row for a username. */
  lemma RegisterKeepsUsernamesUnique(users: seq<User>, username: Option<string>,
                                     password: Option<string>, repeat: Option<string>)
    requires UniqueUsernames(users)
    ensures UniqueUsernames(Register(users, username, password, repeat).0)
  {
  }

  /** Right after a successful registration, the same username and password
      log in. */
  lemma RegisterThenLogin(session: Session, users: seq<User>, username: Option<string>,
                          password: Option<string>, repeat: Option<string>)
    requires Register(users, username, password, repeat).1 == Registered
    ensures Login(session, Register(users, username, password, repeat).0, username, password)
         == (Some(username.value), LoggedIn)
  {
    var users' := Register(users, username, password, repeat).0;
    assert users'[|users|] == User(username.value, password.value);
  }

  /** The session held before logging in has no influence on the result. */
  lemma LoginForgetsPriorSession(s1: Session, s2: Session, users: seq<User>,
                                 username: Option<string>, password: Option<string>)
    ensures Login(s1, users, username, password) == Login(s2, users, username, password)
  {
  }
}

=== FILE: book_detail.dfy ===
/** The `/book/<isbn>` handler: look the book up, on a form submission append
    one review, then list the user's own review and every review of the
    book, each with its rating shown as a star glyph. */
module BookDetail {
  import opened Wrappers
  import opened Tables
  import opened Stars

  /** A review as the page shows it: the rating as its glyph, the timestamp
      still in Unix seconds. */
  datatype ReviewView = ReviewView(text: string, stars: string, username: string, timestamp: int)

  datatype BookRequest = ViewOnly | SubmitReview(textReview: Option<string>, starReview: Option<string>)

  /** `InvalidIsbn` is the flash-and-redirect to the search page; `ServerError`
      is a request that fails with an exception. */
  datatype BookOutcome =
    | InvalidIsbn
    | ServerError
    | BookPage(book: Book, userReview: Option<ReviewView>, reviews: seq<ReviewView>)

  /** The row a submitted review form inserts. A glyph the codec does not
      know leaves the rating unbound, and a missing review text violates the
      column's NOT NULL constraint: both fail before anything is stored. */
  function ReviewFromForm(isbn: string, user: string, text: Option<string>, star: Option<string>,
                          now: int): (r: Option<Review>)
    ensures r.Some? <==> text.Some? && star.Some? && StarsToInt(star.value).Some?
    ensures r.Some? ==>
      && r.value.isbn == isbn && r.value.username == user
      && r.value.text == text.value && r.value.timestamp == now
      && 1 <= r.value.rating <= 5
      && IntToStars(r.value.rating) == star
  {
    if star.None? || text.None? then None
    else
      match StarsToInt(star.value)
      case None => None
      case Some(n) =>
        GlyphRoundTrip(star.value);
        Some(Review(isbn, text.value, n, user, now))
  }

  /** Shows a stored review; a rating outside 1..5 has no glyph. */
  function ShowReview(r: Review): (v: Option<ReviewView>)
    ensures v.Some? <==> 1 <= r.rating <= 5
    ensures v.Some? ==> v.value == ReviewView(r.text, Glyph(r.rating), r.username, r.timestamp)
  {
    match IntToStars(r.rating)
    case None => None
    case Some(glyph) => Some(ReviewView(r.text, glyph, r.username, r.timestamp))
  }

  /** Shows every review in order, failing on the first rating without a
      glyph. */
  function ShowReviews(rs: seq<Review>): (v: Option<seq<ReviewView>>)
    ensures v.Some? <==> RatingsValid(rs)
    ensures v.Some? ==> |v.value| == |rs| && forall i :: 0 <= i < |rs| ==>
      v.value[i] == ReviewView(rs[i].text, Glyph(rs[i].rating), rs[i].username, rs[i].timestamp)
  {
    if |rs| == 0 then Some([])
    else
      assert forall r :: r in rs <==> r == rs[0] || r in rs[1..];
      match ShowReview(rs[0])
      case None => None
      case Some(head) =>
        match ShowReviews(rs[1..])
        case None => None
        case Some(tail) => Some([head] + tail)
  }

  /** The part of the handler after the request method has been dealt with:
      the user's own review and the list of all reviews of the book. */
  function RenderBook(reviews: seq<Review>, book: Book, user: string): (r: BookOutcome)
    ensures r.BookPage? <==> RatingsValid(ReviewsFor(reviews, book.isbn))
    ensures !r.BookPage? ==> r == ServerError
    ensures r.BookPage? ==>
      var all := ReviewsFor(reviews, book.isbn);
      && r.book == book
      && |r.reviews| == |all|
      && (forall i :: 0 <= i < |all| ==>
            r.reviews[i] == ReviewView(all[i].text, Glyph(all[i].rating), all[i].username, all[i].timestamp))
      && (r.userReview.Some? <==> OwnReview(reviews, book.isbn, user).Some?)
    ensures r.BookPage? && r.userReview.Some? ==>
      var own := OwnReview(reviews, book.isbn, user).value;
      r.userReview.value == ReviewView(own.text, Glyph(own.rating), user, own.timestamp)
  {
    var own := OwnReview(reviews, book.isbn, user);
    var ownView := if own.Some? then ShowReview(own.value) else None;
    if own.Some? && ownView.None? then ServerError
    else
      match ShowReviews(ReviewsFor(reviews, book.isbn))
      case None => ServerError
      case Some(all) => BookPage(book, ownView, all)
  }

  /** The whole handler for a logged-in `user` at time `now`. */
  function ViewBook(db: Db, user: string, isbn: string, req: BookRequest, now: int): (r: (Db, BookOutcome))
    ensures r.0.users == db.users && r.0.books == db.books
    ensures FindBook(db.books, isbn).None? ==> r == (db, InvalidIsbn)
    ensures FindBook(db.books, isbn).Some? && req.ViewOnly? ==>
      r == (db, RenderBook(db.reviews, FindBook(db.books, isbn).value, user))
    ensures FindBook(db.books, isbn).Some? && req.SubmitReview? ==>
      match ReviewFromForm(isbn, user, req.textReview, req.starReview, now)
      case None => r == (db, ServerError)
      case Some(row) =>
        r.0 == db.(reviews := db.reviews + [row])
        && r.1 == RenderBook(r.0.reviews, FindBook(db.books, isbn).value, user)
  {
    match FindBook(db.books, isbn)
    case None => (db, InvalidIsbn)
    case Some(book) =>
      match req
      case ViewOnly => (db, RenderBook(db.reviews, book, user))
      case SubmitReview(text, star) =>
        match ReviewFromForm(book.isbn, user, text, star, now)
        case None => (db, ServerError)
        case Some(row) =>
          var db' := db.(reviews := db.reviews + [row]);
          (db', RenderBook(db'.reviews, book, user))
  }

  /** With valid stored ratings, a known book always renders. */
  lemma ValidRatingsRender(reviews: seq<Review>, book: Book, user: string)
    requires RatingsValid(reviews)
    ensures RenderBook(reviews, book, user).BookPage?
  {
  }

  /** A review accepted for a known book is the only change to the tables. */
  lemma SubmitReviewAppends(db: Db, user: string, isbn: string, text: string, star: string, now: int)
    requires FindBook(db.books, isbn).Some? && StarsToInt(star).Some?
    ensures ViewBook(db, user, isbn, SubmitReview(Some(text), Some(star)), now).0
         == db.(reviews := db.reviews + [Review(isbn, text, StarsToInt(star).value, user, now)])
  {
  }

  /** Once the accepted row of `SubmitReviewAppends` is stored, ratings stay
      valid, the user has an own review of that book and the book's review
      list is one longer. */
  lemma SubmitReviewEffect(reviews: seq<Review>, user: string, isbn: string, text: string,
                           star: string, now: int)
    requires StarsToInt(star).Some? && RatingsValid(reviews)
    ensures var reviews' := reviews + [Review(isbn, text, StarsToInt(star).value, user, now)];
      && RatingsValid(reviews')
      && OwnReview(reviews', isbn, user).Some?
      && |ReviewsFor(reviews', isbn)| == |ReviewsFor(reviews, isbn)| + 1
  {
    var row := Review(isbn, text, StarsToInt(star).value, user, now);
    ReviewsForAppend(reviews, row, isbn);
    assert (reviews + [row])[|reviews|] == row;
  }

  /** The page rendered once that row is stored lists one more review than
      before. */
  lemma SubmitReviewShown(reviews: seq<Review>, book: Book, user: string, text: string,
                          star: string, now: int)
    requires StarsToInt(star).Some? && RatingsValid(reviews)
    ensures var page := RenderBook(reviews + [Review(book.isbn, text, StarsToInt(star).value, user, now)], book, user);
      page.BookPage? && |page.reviews| == |ReviewsFor(reviews, book.isbn)| + 1
  {
    var row := Review(book.isbn, text, StarsToInt(star).value, user, now);
    SubmitReviewEffect(reviews, user, book.isbn, text, star, now);
    ValidRatingsRender(reviews + [row], book, user);
  }
}

=== FILE: query.dfy ===
/** Search-query normalisation: the query is cut into whitespace-separated
    words (Python's argument-less `str.split`) and the words are rejoined with
    single spaces. */
module Query {

  /** The code points Python's `str.isspace` accepts, which are the separators
      of an argument-less `str.split`. */
  predicate IsSpace(c: char)
  {
    || ('\t' <= c <= '\r')
    || ('\U{1C}' <= c <= ' ')
    || c == '\U{85}' || c == '\U{A0}' || c == '\U{1680}'
    || ('\U{2000}' <= c <= '\U{200A}')
    || c == '\U{2028}' || c == '\U{2029}' || c == '\U{202F}'
    || c == '\U{205F}' || c == '\U{3000}'
  }

  /** A word: a non-empty run of non-separator characters. */
  predicate IsWord(w: string)
  {
    |w| > 0 && forall i :: 0 <= i < |w| ==> !IsSpace(w[i])
  }

  /** A normalised string: every separator in it is a single plain space with
      a non-separator on each side, so there is no separator at either end and
      no two separators in a row. */
  predicate Normalized(t: string)
  {
    forall i :: 0 <= i < |t| && IsSpace(t[i]) ==>
      t[i] == ' ' && 0 < i < |t| - 1 && !IsSpace(t[i + 1])
  }

  /** The longest prefix of `s` that holds no separator. */
  function Word(s: string): (w: string)
    ensures w <= s
    ensures forall i :: 0 <= i < |w| ==> !IsSpace(w[i])
    ensures |w| < |s| ==> IsSpace(s[|w|])
  {
    if |s| == 0 || IsSpace(s[0]) then [] else [s[0]] + Word(s[1..])
  }

  /** The words of `s`, left to right. */
  function Split(s: string): (ws: seq<string>)
    ensures forall i :: 0 <= i < |ws| ==> IsWord(ws[i])
    ensures |s| > 0 && !IsSpace(s[0]) ==> |ws| > 0 && ws[0] == Word(s)
    decreases |s|
  {
    if |s| == 0 then []
    else if IsSpace(s[0]) then Split(s[1..])
    else
      var w := Word(s);
      [w] + Split(s[|w|..])
  }

  /** `s` with every separator removed. */
  function Squeeze(s: string): string
  {
    if |s| == 0 then "" else (if IsSpace(s[0]) then "" else [s[0]]) + Squeeze(s[1..])
  }

  /** The words written one after the other. */
  function Concat(ws: seq<string>): string
  {
    if |ws| == 0 then "" else ws[0] + Concat(ws[1..])
  }

  /** Position `i` of `s` starts a word: it holds a non-separator and is
      first or follows a separator. */
  predicate WordStart(s: string, i: int)
    requires 0 <= i < |s|
  {
    !IsSpace(s[i]) && (i == 0 || IsSpace(s[i - 1]))
  }

  /** The number of word starts at positions `k` and later. */
  function CountStarts(s: string, k: nat): nat
    decreases |s| - k
  {
    if k >= |s| then 0 else (if WordStart(s, k) then 1 else 0) + CountStarts(s, k + 1)
  }

  /** Squeezing distributes over concatenation. */
  lemma {:induction false} SqueezeAppend(a: string, b: string)
    ensures Squeeze(a + b) == Squeeze(a) + Squeeze(b)
  {
    if |a| > 0 {
      assert (a + b)[1..] == a[1..] + b;
      SqueezeAppend(a[1..], b);
    } else {
      assert a + b == b;
    }
  }

  /** A string without separators is its own squeeze. */
  lemma {:induction false} SqueezeNoSpace(w: string)
    requires forall i :: 0 <= i < |w| ==> !IsSpace(w[i])
    ensures Squeeze(w) == w
  {
    if |w| > 0 {
      SqueezeNoSpace(w[1..]);
    }
  }

  /** The words joined with single spaces (Python's `" ".join`). */
  function Join(ws: seq<string>): string
  {
    if |ws| == 0 then ""
    else if |ws| == 1 then ws[0]
    else ws[0] + " " + Join(ws[1..])
  }

  /** Joined words hold exactly the letters of the words, with one separator
      fewer than there are words. */
  lemma {:induction false} JoinSqueeze(ws: seq<string>)
    ensures (forall i :: 0 <= i < |ws| ==> IsWord(ws[i])) ==> Squeeze(Join(ws)) == Concat(ws)
    ensures |ws| > 0 ==> |Join(ws)| == |Concat(ws)| + |ws| - 1
  {
    if |ws| == 1 {
      assert Concat(ws) == ws[0] + Concat([]);
      if IsWord(ws[0]) {
        SqueezeNoSpace(ws[0]);
      }
    } else if |ws| > 1 {
      JoinSqueeze(ws[1..]);
      if IsWord(ws[0]) {
        SqueezeWordSpace(ws[0], Join(ws[1..]));
      }
    }
  }

  /** Squeezing a word, a space and more text keeps the word and squeezes
      the text. */
  lemma SqueezeWordSpace(w: string, rest: string)
    requires IsWord(w)
    ensures Squeeze(w + " " + rest) == w + Squeeze(rest)
  {
    var sp := " ";
    assert Squeeze(sp) == [] by {
      assert sp[1..] == [];
    }
    SqueezeNoSpace(w);
    SqueezeAppend(w, sp);
    assert Squeeze(w + sp) == w;
    SqueezeAppend(w + sp, rest);
  }

  /** The normalised query of the search handler. */
  function Normalize(q: string): (r: string)
    ensures Normalized(r)
    ensures Split(r) == Split(q)
  {
    var ws := Split(q);
    JoinNormalized(ws);
    SplitJoin(ws);
    Join(ws)
  }

  /** A word followed by nothing or by a separator is read back whole. */
  lemma {:induction false} WordOfPrefix(w: string, rest: string)
    requires forall i :: 0 <= i < |w| ==> !IsSpace(w[i])
    requires |rest| == 0 || IsSpace(rest[0])
    ensures Word(w + rest) == w
    decreases |w|
  {
    if |w| > 0 {
      assert (w + rest)[1..] == w[1..] + rest;
      WordOfPrefix(w[1..], rest);
    } else {
      assert w + rest == rest;
    }
  }

  /** Joining words yields a normalised string that starts with the first
      word. */
  lemma {:induction false} JoinNormalized(ws: seq<string>)
    requires forall i :: 0 <= i < |ws| ==> IsWord(ws[i])
    ensures Normalized(Join(ws))
    ensures |ws| > 0 ==> |Join(ws)| >= |ws[0]| > 0 && Join(ws)[..|ws[0]|] == ws[0]
  {
    if |ws| >= 2 {
      var w, j := ws[0], Join(ws[1..]);
      JoinNormalized(ws[1..]);
      var t := w + " " + j;
      assert Join(ws) == t;
      assert |j| > 0 && !IsSpace(j[0]) by {
        assert j[0] == j[..|ws[1]|][0] == ws[1][0];
      }
      forall i | 0 <= i < |t| && IsSpace(t[i])
        ensures t[i] == ' ' && 0 < i < |t| - 1 && !IsSpace(t[i + 1])
      {
        if i == |w| {
          assert t[i + 1] == j[0];
        } else if i > |w| {
          assert t[i] == j[i - |w| - 1];
          assert i - |w| - 1 < |j| - 1;
          assert t[i + 1] == j[i - |w|];
        }
      }
      assert t[..|w|] == w;
    }
  }

  /** Splitting joined words gives the words back. */
  lemma {:induction false} SplitJoin(ws: seq<string>)
    requires forall i :: 0 <= i < |ws| ==> IsWord(ws[i])
    ensures Split(Join(ws)) == ws
  {
    if |ws| == 1 {
      SplitWord(ws[0]);
    } else if |ws| >= 2 {
      assert ws == [ws[0]] + ws[1..];
      JoinCons(ws[0], ws[1..]);
      SplitJoin(ws[1..]);
      SplitWordSpace(ws[0], Join(ws[1..]));
    }
  }

  /** A word, a space and more text split into the word and the text's
      words. */
  lemma SplitWordSpace(w: string, j: string)
    requires IsWord(w)
    ensures Split(w + " " + j) == [w] + Split(j)
  {
    SplitAtSeparator(w, ' ', j);
    SplitWord(w);
  }

  /** Normalising twice is normalising once. */
  lemma NormalizeIdempotent(q: string)
    ensures Normalize(Normalize(q)) == Normalize(q)
  {
  }

  /** A normalised suffix starting at a non-separator is itself normalised. */
  lemma SuffixNormalized(t: string, k: nat)
    requires Normalized(t)
    requires k < |t| && !IsSpace(t[k])
    ensures Normalized(t[k..])
  {
    var u := t[k..];
    forall i | 0 <= i < |u| && IsSpace(u[i])
      ensures u[i] == ' ' && 0 < i < |u| - 1 && !IsSpace(u[i + 1])
    {
      assert u[i] == t[k + i];
      assert u[i + 1] == t[k + i + 1];
    }
  }

  /** A string that starts with a word splits into that word and the words
      after the separator that ends it. */
  lemma SplitAfterWord(t: string)
    requires |t| > 0 && !IsSpace(t[0])
    requires |Word(t)| < |t|
    ensures Split(t) == [Word(t)] + Split(t[|Word(t)| + 1..])
  {
    var w := Word(t);
    assert t[|w|..][1..] == t[|w| + 1..];
  }

  /** Joining a word in front of a non-empty list of words puts one space
      between them. */
  lemma JoinCons(w: string, ws: seq<string>)
    requires |ws| > 0
    ensures Join([w] + ws) == w + " " + Join(ws)
  {
    assert ([w] + ws)[1..] == ws;
  }

  /** In a normalised string, the separator that ends the first word is a
      plain space followed by another word. */
  lemma WordThenSpace(t: string)
    requires Normalized(t) && |t| > 0
    requires |Word(t)| < |t|
    ensures t[|Word(t)|] == ' ' && |Word(t)| + 1 < |t| && !IsSpace(t[|Word(t)| + 1])
    ensures t == Word(t) + " " + t[|Word(t)| + 1..]
  {
    var w := Word(t);
    assert IsSpace(t[|w|]);
    assert t == t[..|w|] + [t[|w|]] + t[|w| + 1..];
  }

  /** A normalised string is rebuilt by joining its words. */
  lemma {:induction false} NormalizedIsFixpoint(t: string)
    requires Normalized(t)
    ensures Join(Split(t)) == t
    decreases |t|
  {
    if |t| > 0 {
      assert !IsSpace(t[0]);
      var w := Word(t);
      if |w| == |t| {
        assert w == t;
        assert t[|w|..] == "";
        assert Split(t) == [w];
      } else {
        var k := |w| + 1;
        WordThenSpace(t);
        SuffixNormalized(t, k);
        NormalizedIsFixpoint(t[k..]);
        SplitAfterWord(t);
        JoinCons(w, Split(t[k..]));
      }
    }
  }

  /** Normalised strings are exactly the fixed points of normalisation. */
  lemma NormalizeFixpoint(t: string)
    ensures Normalize(t) == t <==> Normalized(t)
  {
    if Normalized(t) {
      NormalizedIsFixpoint(t);
    }
  }

  /** The words of `s` hold exactly its non-separator characters, in order. */
  lemma {:induction false} SplitKeepsText(s: string)
    ensures Concat(Split(s)) == Squeeze(s)
    decreases |s|
  {
    if |s| > 0 {
      if IsSpace(s[0]) {
        SplitKeepsText(s[1..]);
      } else {
        var w := Word(s);
        SplitKeepsText(s[|w|..]);
        assert s == w + s[|w|..];
        SqueezeAppend(w, s[|w|..]);
        SqueezeNoSpace(w);
        assert ([w] + Split(s[|w|..]))[1..] == Split(s[|w|..]);
      }
    }
  }

  /** Positions holding no word start do not change the count. */
  lemma {:induction false} SkipNonStarts(s: string, a: nat, b: nat)
    requires a <= b <= |s|
    requires forall i :: a <= i < b ==> !WordStart(s, i)
    ensures CountStarts(s, a) == CountStarts(s, b)
    decreases b - a
  {
    if a < b {
      SkipNonStarts(s, a + 1, b);
    }
  }

  /** A separator at `k` is skipped by the split of the rest of `s`. */
  lemma SplitAtSpace(s: string, k: nat)
    requires k < |s| && IsSpace(s[k])
    ensures Split(s[k..]) == Split(s[k + 1..])
  {
    assert s[k..][1..] == s[k + 1..];
  }

  /** The run of non-separators that starts at `k` ends at `e`: at the end
      of `s` or at a separator. */
  lemma {:induction false} RunEnd(s: string, k: nat) returns (e: nat)
    requires k < |s| && !IsSpace(s[k])
    ensures k < e <= |s|
    ensures forall i :: k <= i < e ==> !IsSpace(s[i])
    ensures e < |s| ==> IsSpace(s[e])
  {
    var t := s[k..];
    var w := Word(t);
    assert t[0] == s[k];
    forall i | k <= i < k + |w| ensures !IsSpace(s[i]) {
      assert s[i] == t[i - k] == w[i - k];
    }
    e := k + |w|;
    if e < |s| {
      assert s[e] == t[|w|];
    }
  }

  /** A maximal run from `k` to `e` is one word, and the words after it are
      those after the separator that ends it. */
  lemma {:induction false} SplitRun(s: string, k: nat, e: nat)
    requires k < e <= |s|
    requires forall i :: k <= i < e ==> !IsSpace(s[i])
    requires e < |s| ==> IsSpace(s[e])
    ensures |Split(s[k..])| == 1 + (if e < |s| then |Split(s[e + 1..])| else 0)
  {
    var w, rest := s[k..e], s[e..];
    assert s[k..] == w + rest;
    WordOfPrefix(w, rest);
    assert (w + rest)[|w|..] == rest;
    if e < |s| {
      SplitAtSpace(s, e);
    } else {
      assert rest == [];
    }
  }

  /** A maximal run from boundary `k` to `e` holds one word start, and so
      does not the separator that ends it. */
  lemma {:induction false} CountRun(s: string, k: nat, e: nat)
    requires k < e <= |s|
    requires k == 0 || IsSpace(s[k - 1])
    requires forall i :: k <= i < e ==> !IsSpace(s[i])
    requires e < |s| ==> IsSpace(s[e])
    ensures CountStarts(s, k) == 1 + (if e < |s| then CountStarts(s, e + 1) else 0)
  {
    assert CountStarts(s, k) == 1 + CountStarts(s, k + 1) by {
      assert WordStart(s, k);
    }
    NoStartsInRun(s, k, e);
    if e < |s| {
      assert !WordStart(s, e);
    }
  }

  /** Inside a run of non-separators no word starts after its first
      position. */
  lemma {:induction false} NoStartsInRun(s: string, a: nat, b: nat)
    requires a < b <= |s|
    requires forall i :: a <= i < b ==> !IsSpace(s[i])
    ensures CountStarts(s, a + 1) == CountStarts(s, b)
  {
    forall i | a + 1 <= i < b ensures !WordStart(s, i) {
      assert !IsSpace(s[i - 1]);
    }
    SkipNonStarts(s, a + 1, b);
  }

  /** A separator at `k` adds neither a word nor a word start. */
  lemma {:induction false} SpaceStep(s: string, k: nat)
    requires k < |s| && IsSpace(s[k])
    ensures |Split(s[k..])| == |Split(s[k + 1..])|
    ensures CountStarts(s, k) == CountStarts(s, k + 1)
  {
    SplitAtSpace(s, k);
    assert !WordStart(s, k);
  }

  /** Splitting the part of `s` from a word boundary `k` on gives one word
      per word start from `k` on. */
  lemma {:induction false} SplitCountsFrom(s: string, k: nat)
    requires k <= |s|
    requires k == 0 || IsSpace(s[k - 1])
    ensures |Split(s[k..])| == CountStarts(s, k)
    decreases |s| - k
  {
    if k == |s| {
      assert s[k..] == [];
    } else if IsSpace(s[k]) {
      SpaceStep(s, k);
      SplitCountsFrom(s, k + 1);
    } else {
      var e := RunEnd(s, k);
      SplitRun(s, k, e);
      CountRun(s, k, e);
      if e < |s| {
        SplitCountsFrom(s, e + 1);
      }
    }
  }

  /** `Split` returns one word for each maximal run of non-separators. */
  lemma SplitCountsWords(s: string)
    ensures |Split(s)| == CountStarts(s, 0)
  {
    assert s[0..] == s;
    SplitCountsFrom(s, 0);
  }

  /** A single word splits into itself. */
  lemma {:induction false} SplitWord(w: string)
    requires IsWord(w)
    ensures Split(w) == [w]
  {
    assert w + [] == w;
    WordOfPrefix(w, []);
    assert w[|w|..] == [];
  }

  /** A separator cuts the string in two whose words are split apart: no word
      runs across a separator, so with `Split("") == []` and `SplitWord` this
      fixes `Split` on every string. */
  lemma {:induction false} SplitAtSeparator(a: string, c: char, b: string)
    requires IsSpace(c)
    ensures Split(a + [c] + b) == Split(a) + Split(b)
    decreases |a|
  {
    var s := a + [c] + b;
    if |a| == 0 {
      assert s[1..] == b;
    } else if IsSpace(a[0]) {
      assert s[1..] == a[1..] + [c] + b;
      SplitAtSeparator(a[1..], c, b);
    } else {
      var w := Word(a);
      var tail := a[|w|..];
      WordBeforeSeparator(a, c, b);
      assert s[|w|..] == tail + [c] + b;
      assert Split(s) == [w] + Split(tail + [c] + b);
      SplitAtSeparator(tail, c, b);
    }
  }

  /** Appending a separator and more text does not change the first word. */
  lemma WordBeforeSeparator(a: string, c: char, b: string)
    requires IsSpace(c)
    ensures Word(a + [c] + b) == Word(a)
  {
    var w := Word(a);
    var rest := a[|w|..] + [c] + b;
    assert a == w + a[|w|..];
    assert a + [c] + b == w + rest;
    assert IsSpace(rest[0]);
    WordOfPrefix(w, rest);
  }
}

=== FILE: search.dfy ===
/** The `/search` handler: normalise the query, refuse short ones, and
    otherwise match it case-insensitively as a substring of the isbn, title or
    author of each book, returning at most ten books. */
module Search {
  import opened Wrappers
  import opened Tables
  import opened Query

  /** Shortest normalised query that reaches the database. */
  const MinQueryLength: nat := 4

  /** The `LIMIT` of the search statement. */
  const ResultLimit: nat := 10

  function Min(a: nat, b: nat): nat
  {
    if a <= b then a else b
  }

  /** ASCII lower-casing of one character. */
  function LowerChar(c: char): char
  {
    if 'A' <= c <= 'Z' then (c as int + 32) as char else c
  }

  function Lower(s: string): (r: string)
    ensures |r| == |s|
    ensures forall i :: 0 <= i < |s| ==> r[i] == LowerChar(s[i])
  {
    seq(|s|, i requires 0 <= i < |s| => LowerChar(s[i]))
  }

  /** `needle` occurs in `hay` at position `i`. */
  predicate OccursAt(hay: string, needle: string, i: int)
  {
    0 <= i <= |hay| - |needle| && hay[i..i + |needle|] == needle
  }

  /** Substring search, trying every start position from the left. */
  function Contains(hay: string, needle: string): bool
    decreases |hay|
  {
    if needle <= hay then true
    else if |hay| == 0 then false
    else Contains(hay[1..], needle)
  }

  /** The left-to-right search agrees with the positional definition of
      "occurs somewhere". */
  lemma {:induction false} ContainsSpec(hay: string, needle: string)
    ensures Contains(hay, needle) <==> exists i :: OccursAt(hay, needle, i)
    decreases |hay|
  {
    if needle <= hay {
      assert OccursAt(hay, needle, 0);
    } else if |hay| > 0 {
      ContainsSpec(hay[1..], needle);
      if Contains(hay[1..], needle) {
        var i :| OccursAt(hay[1..], needle, i);
        assert hay[1..][i..i + |needle|] == hay[i + 1..i + 1 + |needle|];
        assert OccursAt(hay, needle, i + 1);
      } else if exists i :: OccursAt(hay, needle, i) {
        var i :| OccursAt(hay, needle, i);
        assert i != 0;
        assert hay[1..][i - 1..i - 1 + |needle|] == hay[i..i + |needle|];
        assert OccursAt(hay[1..], needle, i - 1);
        assert false;
      }
    }
  }

  /** `field ILIKE '%query%'` for a query without wildcard characters. */
  predicate ContainsIgnoringCase(field: string, query: string)
  {
    Contains(Lower(field), Lower(query))
  }

  /** The `WHERE` clause of the search statement: the lower-cased query
      occurs somewhere in the lower-cased isbn, title or author. */
  predicate Matches(b: Book, query: string)
    ensures Matches(b, query) <==>
      || (exists i :: OccursAt(Lower(b.isbn), Lower(query), i))
      || (exists i :: OccursAt(Lower(b.title), Lower(query), i))
      || (exists i :: OccursAt(Lower(b.author), Lower(query), i))
  {
    ContainsSpec(Lower(b.isbn), Lower(query));
    ContainsSpec(Lower(b.title), Lower(query));
    ContainsSpec(Lower(b.author), Lower(query));
    || ContainsIgnoringCase(b.isbn, query)
    || ContainsIgnoringCase(b.title, query)
    || ContainsIgnoringCase(b.author, query)
  }

  /** Every row that satisfies the `WHERE` clause, in table order. */
  function MatchingBooks(books: seq<Book>, query: string): (r: seq<Book>)
    ensures forall b :: b in r <==> b in books && Matches(b, query)
    ensures multiset(r) <= multiset(books)
  {
    if |books| == 0 then []
    else
      var rest := MatchingBooks(books[1..], query);
      assert books == [books[0]] + books[1..];
      if Matches(books[0], query) then [books[0]] + rest else rest
  }

  /** What the store may answer to the limited statement: some of the
      matching rows, in any order, as many as the limit allows. The source
      sets no `ORDER BY`, so any such answer is possible. */
  predicate Admissible(books: seq<Book>, query: string, rows: seq<Book>)
  {
    var all := MatchingBooks(books, query);
    multiset(rows) <= multiset(all) && |rows| == Min(ResultLimit, |all|)
  }

  /** One admissible answer: the first ten matches in table order. */
  function SearchRows(books: seq<Book>, query: string): (rows: seq<Book>)
    ensures Admissible(books, query, rows)
  {
    var all := MatchingBooks(books, query);
    var n := Min(ResultLimit, |all|);
    assert all == all[..n] + all[n..];
    all[..n]
  }

  /** Any admissible answer holds at most ten books, only matching books of
      the table, and every match when fewer than ten books match. */
  lemma AdmissibleAnswer(books: seq<Book>, query: string, rows: seq<Book>)
    requires Admissible(books, query, rows)
    ensures |rows| <= ResultLimit
    ensures forall b :: b in rows ==> b in books && Matches(b, query)
    ensures |MatchingBooks(books, query)| <= ResultLimit ==>
      multiset(rows) == multiset(MatchingBooks(books, query))
    ensures |MatchingBooks(books, query)| >= ResultLimit ==> |rows| == ResultLimit
  {
    var all := MatchingBooks(books, query);
    forall b | b in rows
      ensures b in books && Matches(b, query)
    {
      assert b in multiset(rows);
    }
    if |all| <= ResultLimit {
      var extra := multiset(all) - multiset(rows);
      assert |extra| == |multiset(all)| - |multiset(rows)| == 0;
      assert multiset(all) == multiset(rows) + extra;
    }
  }

  datatype SearchRequest = ShowSearch | SubmitQuery(query: Option<string>)

  /** The page the handler renders: the books found, the query echoed back,
      and whether the query was refused as too short. A submitted form without
      a query field fails inside `str.split`. */
  datatype SearchOutcome =
    | SearchPage(books: seq<Book>, query: Option<string>, tooShort: bool)
    | MissingQuery

  function Search(books: seq<Book>, req: SearchRequest): (r: SearchOutcome)
    ensures req.ShowSearch? ==> r == SearchPage([], None, false)
    ensures req.SubmitQuery? && req.query.None? ==> r.MissingQuery?
    ensures req.SubmitQuery? && req.query.Some? ==>
      var q := Normalize(req.query.value);
      && r.SearchPage? && r.query == Some(q)
      && (r.tooShort <==> |q| < MinQueryLength)
      && (r.tooShort ==> r.books == [])
      && (!r.tooShort ==> Admissible(books, q, r.books))
  {
    match req
    case ShowSearch => SearchPage([], None, false)
    case SubmitQuery(None) => MissingQuery
    case SubmitQuery(Some(raw)) =>
      var q := Normalize(raw);
      if |q| < MinQueryLength then SearchPage([], Some(q), true)
      else SearchPage(SearchRows(books, q), Some(q), false)
  }

  /** A query that is short once normalised never reaches the table: the page
      is the same whatever the table holds. */
  lemma ShortQueryNoLookup(b1: seq<Book>, b2: seq<Book>, raw: string)
    requires |Normalize(raw)| < MinQueryLength
    ensures Search(b1, SubmitQuery(Some(raw))) == Search(b2, SubmitQuery(Some(raw)))
    ensures Search(b1, SubmitQuery(Some(raw))) == SearchPage([], Some(Normalize(raw)), true)
  {
  }

  /** Two queries that differ only in letter case select the same books. */
  lemma {:induction false} MatchingIgnoresCase(books: seq<Book>, q1: string, q2: string)
    requires Lower(q1) == Lower(q2)
    ensures MatchingBooks(books, q1) == MatchingBooks(books, q2)
  {
    if |books| > 0 {
      MatchingIgnoresCase(books[1..], q1, q2);
    }
  }
}

=== FILE: stars.dfy ===
/** The star-rating codec: ratings are stored as the integers 1..5 and shown as
    five-glyph strings of full stars followed by empty stars. */
module Stars {
  import opened Wrappers

  const FullStar: char := '★'
  const EmptyStar: char := '☆'

  /** The string of `n` copies of `c`. */
  function Repeat(c: char, n: nat): (s: string)
    ensures |s| == n
    ensures forall i :: 0 <= i < n ==> s[i] == c
  {
    if n == 0 then [] else [c] + Repeat(c, n - 1)
  }

  /** Reference shape of the glyph for rating `n`: `n` full stars, then
      `5 - n` empty ones. */
  function Glyph(n: int): string
    requires 1 <= n <= 5
  {
    Repeat(FullStar, n) + Repeat(EmptyStar, 5 - n)
  }

  /** The glyph literals of the source spell out exactly the reference shape. */
  lemma GlyphLiterals()
    ensures Glyph(1) == "★☆☆☆☆"
    ensures Glyph(2) == "★★☆☆☆"
    ensures Glyph(3) == "★★★☆☆"
    ensures Glyph(4) == "★★★★☆"
    ensures Glyph(5) == "★★★★★"
  {
    assert Repeat(FullStar, 1) == "★";
    assert Repeat(FullStar, 2) == "★★";
    assert Repeat(FullStar, 3) == "★★★";
    assert Repeat(FullStar, 4) == "★★★★";
    assert Repeat(EmptyStar, 1) == "☆";
    assert Repeat(EmptyStar, 2) == "☆☆";
    assert Repeat(EmptyStar, 3) == "☆☆☆";
    assert Repeat(EmptyStar, 4) == "☆☆☆☆";
  }

  /** Decodes a glyph string into its rating. Any other string leaves the
      source's result variable unbound, which fails the request: `None`. */
  function StarsToInt(glyph: string): (r: Option<int>)
    ensures r.Some? ==> 1 <= r.value <= 5 && glyph == Glyph(r.value)
    ensures r.None? <==> forall n :: 1 <= n <= 5 ==> glyph != Glyph(n)
  {
    GlyphLiterals();
    if glyph == "★☆☆☆☆" then Some(1)
    else if glyph == "★★☆☆☆" then Some(2)
    else if glyph == "★★★☆☆" then Some(3)
    else if glyph == "★★★★☆" then Some(4)
    else if glyph == "★★★★★" then Some(5)
    else None
  }

  /** Encodes a rating as its glyph string; no glyph exists outside 1..5. */
  function IntToStars(n: int): (r: Option<string>)
    ensures r.Some? <==> 1 <= n <= 5
    ensures r.Some? ==> r.value == Glyph(n) && |r.value| == 5
  {
    GlyphLiterals();
    if n == 1 then Some("★☆☆☆☆")
    else if n == 2 then Some("★★☆☆☆")
    else if n == 3 then Some("★★★☆☆")
    else if n == 4 then Some("★★★★☆")
    else if n == 5 then Some("★★★★★")
    else None
  }

  /** Encoding a rating and decoding the glyph gives the rating back. */
  lemma RatingRoundTrip(n: int)
    requires 1 <= n <= 5
    ensures IntToStars(n).Some?
    ensures StarsToInt(IntToStars(n).value) == Some(n)
  {
  }

  /** Decoding a recognised glyph and encoding the rating gives the glyph back. */
  lemma GlyphRoundTrip(glyph: string)
    requires StarsToInt(glyph).Some?
    ensures IntToStars(StarsToInt(glyph).value) == Some(glyph)
  {
  }

  /** Distinct ratings have distinct glyphs, so the codec is a bijection
      between 1..5 and the five glyph strings. */
  lemma GlyphInjective(m: int, n: int)
    requires 1 <= m <= 5 && 1 <= n <= 5
    ensures Glyph(m) == Glyph(n) <==> m == n
  {
    if m != n {
      var k := if m < n then m else n;
      assert Glyph(m)[k] != Glyph(n)[k];
    }
  }
}

=== FILE: tables.dfy ===
/** The three tables the request handlers read and write, as immutable
    sequences of rows, with the single-table lookups the handlers issue. */
module Tables {
  import opened Wrappers

  /** A row of `users`. The username is the identity; the password is stored
      and compared as plain text. */
  datatype User = User(username: string, password: string)

  /** A row of `books`; `isbn` is the primary key. */
  datatype Book = Book(isbn: string, title: string, author: string, year: string)

  /** A row of `reviews` (its generated id is not modelled). The rating is the
      decoded star glyph; the timestamp is whole Unix seconds. */
  datatype Review = Review(isbn: string, text: string, rating: int, username: string, timestamp: int)

  datatype Db = Db(users: seq<User>, books: seq<Book>, reviews: seq<Review>)

  /** Some row of `users` carries this username. */
  predicate UserExists(users: seq<User>, name: string)
  {
    exists i :: 0 <= i < |users| && users[i].username == name
  }

  /** Some row of `users` carries exactly this username and password. */
  predicate CredentialsMatch(users: seq<User>, name: string, password: string)
  {
    exists i :: 0 <= i < |users| && users[i] == User(name, password)
  }

  /** No two rows of `users` share a username. */
  predicate UniqueUsernames(users: seq<User>)
  {
    forall i, j :: 0 <= i < j < |users| ==> users[i].username != users[j].username
  }

  /** Every stored rating is one the star codec can produce. */
  predicate RatingsValid(reviews: seq<Review>)
  {
    forall r :: r in reviews ==> 1 <= r.rating <= 5
  }

  /** The first row of `books` with this isbn, as `fetchone` returns it. */
  function FindBook(books: seq<Book>, isbn: string): (r: Option<Book>)
    ensures r.Some? <==> exists i :: 0 <= i < |books| && books[i].isbn == isbn
    ensures r.Some? ==> r.value in books && r.value.isbn == isbn
  {
    if |books| == 0 then None
    else if books[0].isbn == isbn then Some(books[0])
    else
      var r := FindBook(books[1..], isbn);
      assert forall i :: 0 < i < |books| ==> books[i] == books[1..][i - 1];
      r
  }

  /** All rows of `reviews` for this isbn, in table order. */
  function ReviewsFor(reviews: seq<Review>, isbn: string): (rs: seq<Review>)
    ensures forall r :: r in rs <==> r in reviews && r.isbn == isbn
    ensures |rs| <= |reviews|
  {
    if |reviews| == 0 then []
    else
      var rest := ReviewsFor(reviews[1..], isbn);
      assert forall r :: r in reviews <==> r == reviews[0] || r in reviews[1..];
      if reviews[0].isbn == isbn then [reviews[0]] + rest else rest
  }

  /** The first review of this isbn written by this user, if any. */
  function OwnReview(reviews: seq<Review>, isbn: string, user: string): (r: Option<Review>)
    ensures r.Some? <==> exists i :: 0 <= i < |reviews| && reviews[i].isbn == isbn && reviews[i].username == user
    ensures r.Some? ==> r.value in reviews && r.value.isbn == isbn && r.value.username == user
  {
    if |reviews| == 0 then None
    else if reviews[0].isbn == isbn && reviews[0].username == user then Some(reviews[0])
    else
      var r := OwnReview(reviews[1..], isbn, user);
      assert forall i :: 0 < i < |reviews| ==> reviews[i] == reviews[1..][i - 1];
      r
  }

  /** Appending a row extends the per-isbn list by that row exactly when the
      row has that isbn. */
  lemma {:induction false} ReviewsForAppend(reviews: seq<Review>, x: Review, isbn: string)
    ensures ReviewsFor(reviews + [x], isbn)
         == ReviewsFor(reviews, isbn) + (if x.isbn == isbn then [x] else [])
  {
    if |reviews| == 0 {
      assert [] + [x] == [x];
    } else {
      assert (reviews + [x])[1..] == reviews[1..] + [x];
      ReviewsForAppend(reviews[1..], x, isbn);
    }
  }
}

=== FILE: wrappers.dfy ===
/** The optional value used throughout the model: Python's `None` on one side,
    a present value on the other. */
module Wrappers {

  datatype Option<+T> = None | Some(value: T)
}
